=== FILE: README.md ===
# Booking ledger of the barber booking service, in Dafny

This project models the booking ledger behind the four JSON routes of `app.py`:
listing bookings (`get_bookings`), creating one (`create_booking`), cancelling
one (`cancel_booking`) and checking whether a slot is free
(`check_availability`). It also models the `Booking` table those routes read and
write, including its unique constraint on `(date, time)`.

Flask, SQLAlchemy and Socket.IO are abstracted away. What remains is a
sequential state machine:

- **State** (`BookingTable.Ledger`): the rows of the `Booking` table, kept in
  storage order (ascending id), plus the id the next insert will receive.
  `BookingTable.Table` views the same rows as a map from id to record.
- **Transitions** (`Handlers`): each route is a pure function. It takes the
  ledger, the already-parsed request, and the fault (if any) the database raises
  while serving it. It returns an `Outcome`: the reply, the ledger afterwards,
  and the real-time events emitted (`NewBooking` for `new_booking`,
  `BookingCancelled` for `booking_cancelled`).
- **Refusals** (`Handlers.ApiError`) map to status codes in `Handlers.StatusOf`:
  - a missing create field and a missing or empty date/time on check give 400;
  - an occupied slot gives 409;
  - an unknown id gives 404;
  - a body that is not a JSON object, and any database error, give 500.
- **Runs** (`Properties.Run`): a run serves a sequence of requests one after
  another. The one-booking-per-slot invariant, the event log and the uniqueness
  guarantee are stated over runs.

Module layout:

| file | module | models |
|---|---|---|
| wrappers.dfy | `Wrappers` | `Option` and `Result` |
| search.dfy | `Search` | the first-match scan behind `first()` and `get` |
| collation.dfy | `Collation` | the TEXT ordering the date filter uses |
| booking_table.dfy | `BookingTable` | the `Booking` record, its constraints, insert and delete |
| handlers.dfy | `Handlers` | the four route handlers |
| properties.dfy | `Properties` | properties that relate several calls |
| scenarios.dfy | `Scenarios` | worked examples on concrete values |

The date filter compares strings as the database does under its default binary
collation. That is lexicographic order by code point, with a proper prefix
sorting first. `Collation.LexLe` defines it recursively. It is proved equal to
its reference reading: a prefix, or a smaller character at the first
difference. It is also proved to be a total order.

The model follows the code where its behaviour is easy to misread:

- The 409 comes from an explicit read before the insert (app.py:180-182), not
  from the unique constraint alone. The constraint is still modelled in
  `BookingTable.Insert`; violating it gives a 500. In a sequential run that path
  is never reached.
- Field presence is the only check before the insert (app.py:175-177). An empty
  string counts as present. A JSON `null` also counts as present; it then fails
  the column's NOT NULL rule when the row is committed, so the reply is 500, not
  400.
- `check_availability` treats an empty `date` or `time` as missing
  (app.py:234). `create_booking` does not.
- The list filter is applied only when both `startDate` and `endDate` are
  non-empty (app.py:159). With only one bound, every row is returned.
- A database failure on the first read of a create (app.py:180) gives 500 even
  when the slot is taken. In `check_availability`, the 400 check comes before
  any database access, so a missing parameter gives 400 even when the database
  is down.

## Model

| member | source | states |
|---|---|---|
| `Handlers.StatusOf` | app.py:166-245 | Every refusal's status is a 4xx or 5xx. It is 500 exactly for the refusals whose text is the raised exception's own (a body that is not a JSON object, any database error). |
| `Handlers.Status` | app.py:150-245 | A reply has a 2xx status exactly when it is not a refusal. 201 is exactly a created booking. |
| `Handlers.ErrorText` | app.py:174-235 | The handler writes its own `error` text exactly for the 400, 404 and 409 refusals. |
| `Handlers.ErrorTextIdentifies` | app.py:174-235 | Two refusals with the same handler-written text are the same refusal, including the missing field's name. |
| `Collation.LexLeIsCollatesBefore` | app.py:160 | The string order used by the date filter holds exactly when the first string is a prefix of the second, or is smaller at their first difference. Both directions are proved. |
| `Collation.LexLeReflexive` | app.py:160 | Every string orders at or before itself, so the inclusive bounds `>=` and `<=` admit a date equal to the bound. |
| `Collation.LexLeAntisymmetric` | app.py:160 | Two dates that each order at or before the other are equal. |
| `Collation.LexLeTransitive` | app.py:160 | The filter's order is transitive. |
| `Collation.LexLeTotal` | app.py:160 | Any two dates are comparable, so every row is either in a range or out of it on one side. |
| `Collation.LexLeCommonPrefix` | app.py:160 | A shared prefix does not change how two date strings compare. |
| `Search.FirstIndex` | app.py:180 | The scan behind `first()` returns the earliest matching position. It returns none exactly when no element matches. |
| `BookingTable.IndexOfId` | app.py:211 | The primary-key lookup finds a row with that id exactly when one exists. |
| `BookingTable.FirstInSlot` | app.py:237 | The slot lookup returns a stored row holding the slot exactly when the slot is taken. |
| `BookingTable.OccupantOf` | app.py:180 | The create-time slot lookup finds a row only for a non-null date and time whose slot is taken. A null matches nothing. |
| `BookingTable.Insert` | app.py:22-31 | The commit succeeds exactly when all five columns are non-null and the slot is free. The row holds the given values verbatim and a fresh id. The unique-slot and ascending-id invariant is preserved. A failure is a NOT NULL or unique-constraint violation. |
| `BookingTable.Delete` | app.py:216-217 | Deleting removes exactly the rows with the deleted row's id. Every other row stays, and the invariant is preserved. |
| `BookingTable.DeleteMembers` | app.py:216 | With unique ids, the rows left after the delete are exactly the old rows with a different id. |
| `BookingTable.Table` | app.py:23 | The id-to-row map has exactly the ids of the stored rows as keys. Each key maps to a stored row carrying that id. With unique ids, each row is the one its id maps to. |
| `Handlers.SelectDates` | app.py:159-160 | The date filter keeps exactly the rows whose date lies in `[startDate, endDate]` under the string order, each as often as it is stored, and drops every other row. |
| `Handlers.SelectDatesAppend` | app.py:159-162 | The filter keeps storage order: filtering two consecutive runs of rows gives the filtered first run followed by the filtered second. |
| `Handlers.ListBookings` | app.py:150-166 | With both bounds non-empty, list returns exactly the rows in range, each as often as it is stored. Otherwise it returns every row. A failing read gives 500. The ledger never changes and no event is emitted. |
| `Handlers.CreateBooking` | app.py:168-206 | The outcomes, in checking order: a non-object body gives 500; a missing field gives 400 naming the first missing one in the order date, time, name, phone, service; a failing read gives 500; an occupied slot gives 409; past the slot read, a null field gives 500 naming a null column, and a commit that raises gives 500. Create gives 201 exactly when the body is complete, all five values are strings, the slot is free and nothing fails. It then appends one row with a fresh id and the given values verbatim, and emits exactly one `new_booking` with that row. Every other outcome leaves the ledger unchanged and emits nothing. The invariant is preserved. |
| `Handlers.CancelBooking` | app.py:208-226 | A failing read gives 500. An unknown id gives 404. A commit that raises on a stored id gives 500. Cancel gives 200 exactly when the id exists and nothing fails. It then removes that row and emits one `booking_cancelled` carrying the row as it was. Afterwards the id is gone. Every other outcome leaves the ledger unchanged and emits nothing. |
| `Handlers.CheckAvailability` | app.py:228-245 | A missing or empty date or time gives 400, before any read. Otherwise, unless the read fails, `available` holds exactly when no row holds the slot. When it is false, the returned booking is a row holding that slot. The ledger never changes. |
| `Properties.TableAppend` | app.py:193-194 | Appending a row with a fresh id extends the id-to-row map by exactly that entry. |
| `Properties.TableRemove` | app.py:216-217 | Deleting a row removes exactly its id from the id-to-row map. |
| `Properties.CreateAddsOneRow` | app.py:185-194 | A successful create adds one entry under an id not previously in use. All other rows are untouched. |
| `Properties.CancelRemovesOneRow` | app.py:211-220 | A successful cancel removes exactly the cancelled id. All other rows are untouched. The event carries the row as it was before deletion. |
| `Properties.Serve` | app.py:150-245 | Any request that is neither a successful create nor a successful cancel leaves the ledger unchanged and emits nothing. A successful create emits exactly its `new_booking`. The invariant is preserved. |
| `Properties.Run` | app.py:31 | After any sequential run from a valid ledger, no two rows share a (date, time), ids are unique and ascending, and all ids are below the id source. |
| `Properties.CreateReplay` | app.py:196-197 | A create's events pass a viewer's checks (a new booking carries an id the viewer does not hold) and turn the old table into the new one. |
| `Properties.CancelReplay` | app.py:219-220 | A cancel's events pass a viewer's checks (the cancellation carries the row exactly as the viewer holds it) and turn the old table into the new one. |
| `Properties.StepReplay` | app.py:150-245 | For every kind of request, its events pass a viewer's checks and turn the old table into the new one. |
| `Properties.RunReplay` | app.py:196-220 | Every change is announced with the right payload. Over any run, each `new_booking` carries an id not yet in the viewer's copy, and each `booking_cancelled` carries the cancelled row exactly as stored. Replaying the run's events on the initial table yields the final table. |
| `Properties.EventsOnlyOnSuccess` | app.py:196-222 | In any run, the event log is the requests' own events in order. Each successful create emits exactly its `new_booking`, each successful cancel exactly one `booking_cancelled`, and every other request emits nothing. So the log's length equals the number of successful creates and cancels. |
| `Properties.FromCreateAll` | app.py:44-46 | A run started on the empty table that `db.create_all` creates keeps the invariant. Its events, replayed by a viewer that starts with no rows, give the final table. |
| `Properties.CreateBookingAsWritten` | app.py:193-206 | Create as written still keeps the invariant, and emits its `new_booking` on 201 and nothing otherwise. The only refusal that changes the ledger is a failing read-back after the commit: it replies 500 and leaves exactly one extra row after the old ones. |
| `Properties.ReloadFaultKeepsRowUnannounced` | app.py:193-206 | A failing read-back after a good create gives 500 with the ledger changed, and replaying the (empty) event log no longer yields the table. |
| `Properties.SlotStaysTaken` | app.py:180-182 | Once a slot is held, a later create for it that gets past the read is refused with 409. |
| `Properties.SameSlotAtMostOnce` | app.py:180-194 | Of any run of creates for one slot, at most one succeeds. None succeeds if the slot was already held. |
| `Properties.DistinctSlotsAllSucceed` | app.py:180-202 | Creates for pairwise distinct free slots all succeed, in any order. |
| `Properties.CancelTwice` | app.py:211-222 | Cancelling the same existing id twice gives 200, then 404. |
| `Properties.FirstInSlotFinds` | app.py:237 | Once slots are unique, the slot lookup returns the very row that holds the slot. |
| `Properties.CreateThenRead` | app.py:237-242 | A booking just created is listed verbatim. Its slot is then reported unavailable, and the check returns that same row. |
| `Scenarios.JuneStartInJune` | app.py:160 | 2024-06-01 lies within [2024-06-01, 2024-06-30]. |
| `Scenarios.MidJuneInJune` | app.py:160 | 2024-06-15 lies within [2024-06-01, 2024-06-30]. |
| `Scenarios.JulyNotInJune` | app.py:160 | 2024-07-01 lies outside [2024-06-01, 2024-06-30]. |
| `Scenarios.SelectThree` | app.py:159-162 | The filter keeps the in-range rows in storage order. |
| `Scenarios.JuneListing` | app.py:154-163 | Given bookings dated 2024-06-01, 2024-06-15 and 2024-07-01, listing June returns exactly the first two. |
| `Scenarios.MissingService` | app.py:174-177 | A body without `service` gives 400 with "Missing required field: service". Nothing is stored or emitted. |

## Left out

- Flask routing and JSON parsing: inputs arrive already parsed. A create body
  that is not a JSON object covers a missing, malformed or `null` body, and
  gives 500 (app.py:171-176). A top-level JSON array or string is not modelled:
  there `'date' not in data` is an element or substring test (app.py:176), so
  such a body gives 400 or 500 depending on its contents, while the model gives
  500. Field values that are numbers, booleans or nested values are not
  modelled either. Field values are strings
  or `null`.
- The HTML index and admin pages and static file serving (app.py:50-148) are
  presentation only.
- Configuration, environment variables, database URI rewriting, CORS and server
  startup (app.py:9-19, 257-259) are I/O plumbing.
- Socket.IO transport and delivery, and the connect and disconnect handlers
  (app.py:248-255), are left out. Emitted events appear only as an output log.
  An `emit` that raises after the commit is not modelled; it would give 500
  with the row already stored.
- Concurrency: the race between the slot read (app.py:180) and the insert
  (app.py:193) cannot be expressed in a sequential model. The uniqueness
  properties hold for sequential runs only.
- `created_at` generation and formatting (app.py:29, 41): the ISO-8601 text of
  the clock reading is the `now` parameter of create.
- SQLAlchemy internals. Ids come from a counter that only grows, like a
  database sequence. SQLite may reuse the highest id after it is deleted. A
  sequence value used by a failed insert is not consumed in the model.
- Column length limits (`String(50)` and the like, app.py:24-28): SQLite does
  not enforce them, and other engines would raise a 500.
- Exception text in 500 replies: the source replies with the raised exception's
  text, which depends on Flask, SQLAlchemy and the driver. The model records only
  the cause (`Handlers.ApiError`), and `Handlers.ErrorText` gives no text for it.
- Collations other than binary, such as a locale-aware PostgreSQL collation,
  would order dates differently.
- List order: the query has no ORDER BY. The model returns rows in storage
  order (ascending id); other engines promise no particular order.
- Faults on the read-only routes: list and check fail only on a failing read
  (`ReadFault`); they issue no commit, so a `CommitFault` does not affect them.
- Handlers.CancelBooking: ids are unbounded integers. The route's `<int:…>`
  converter accepts only non-negative ids, with no upper bound. On SQLite an id
  of 2^63 or more cannot be bound by the lookup (app.py:211), which raises, so
  the reply is 500. The model covers such a request only as a `ReadFault`; with
  no fault it replies 404 for any id that is not stored, negative ones included.
- Handlers.CreateBooking: the read-back of the committed row is left out. The
  commit expires the new instance, so `booking.to_dict()` (app.py:197) reads the
  row again. If that read raises, the reply is 500 with the row already stored
  and nothing emitted. `Handlers.CreateBooking` models the intended behaviour, and
  `Properties.CreateBookingAsWritten` models this path (see Findings).

## Findings

| source | as written | input that shows it | evidently intended | confidence | as-written member | corrected member |
|---|---|---|---|---|---|---|
| app.py:193-206 | After `db.session.commit()` the expired instance is read back by `booking.to_dict()`. A failure there is caught by the handler, which replies 500, and the row stays stored. | A valid body for a free slot, with the commit succeeding and the read-back raising. | A 500 from create means nothing was stored (the handler's `rollback`), and every stored row is announced by `new_booking`. | medium, not executed | `Properties.CreateBookingAsWritten`, `Properties.ReloadFaultKeepsRowUnannounced` | `Handlers.CreateBooking` (ensures that every non-201 reply leaves the ledger unchanged), `Properties.RunReplay` |

=== FILE: booking_table.dfy ===
/**
 The `Booking` table of app.py and its database-side rules: the row record,
 the NOT NULL columns, the unique constraint `_date_time_uc` on (date, time),
 the serial id source, and the insert and delete the handlers issue.

 The table is kept as a sequence in storage order (ascending id, the scan
 order of a rowid table), so that "the first row that matches" is defined.
 `Table` gives the same rows as a map from id to record.
 */
module BookingTable {
  import opened Wrappers
  import opened Search

  /** One row, which is also its JSON rendering (`to_dict`): `createdAt` is the
      stored timestamp already written as ISO-8601 text, or None when the row has none. */
  datatype Booking = Booking(
    id: int,
    date: string,
    time: string,
    name: string,
    phone: string,
    service: string,
    createdAt: Option<string>)

  /** A value offered for a NOT NULL text column: a string, or null. */
  datatype Value = Text(s: string) | Null

  /** The table in storage order, and the id the next insert receives. */
  datatype Ledger = Ledger(rows: seq<Booking>, nextId: int)

  /** The errors the database raises to the handlers. */
  datatype DbError =
    | Unavailable(reason: string)    // connectivity or any other failure of a query or a commit
    | NotNullViolation(column: string)
    | UniqueViolation                // the `_date_time_uc` constraint

  /** The empty table: serial ids start at 1. */
  const Empty: Ledger := Ledger([], 1)

  predicate InSlot(b: Booking, date: string, time: string)
  {
    b.date == date && b.time == time
  }

  /** Storage order is ascending id; in particular ids are unique. */
  predicate IdsAscending(rows: seq<Booking>)
  {
    forall i, j :: 0 <= i < j < |rows| ==> rows[i].id < rows[j].id
  }

  /** The unique constraint `_date_time_uc`: no two rows share a (date, time) slot. */
  predicate SlotsUnique(rows: seq<Booking>)
  {
    forall i, j :: 0 <= i < j < |rows| ==> !InSlot(rows[j], rows[i].date, rows[i].time)
  }

  /** Every id handed out so far is below the id source. */
  predicate IdsBelow(rows: seq<Booking>, bound: int)
  {
    forall i :: 0 <= i < |rows| ==> rows[i].id < bound
  }

  /** The states the database can be in. */
  predicate Valid(l: Ledger)
  {
    IdsAscending(l.rows) && SlotsUnique(l.rows) && IdsBelow(l.rows, l.nextId)
  }

  predicate HasId(rows: seq<Booking>, id: int)
  {
    exists i :: 0 <= i < |rows| && rows[i].id == id
  }

  predicate SlotTaken(rows: seq<Booking>, date: string, time: string)
  {
    exists i :: 0 <= i < |rows| && InSlot(rows[i], date, time)
  }

  /** `Booking.query.get(id)`: where the row with primary key `id` is stored, if any. */
  function IndexOfId(rows: seq<Booking>, id: int): (r: Option<nat>)
    ensures r.None? <==> !HasId(rows, id)
    ensures r.Some? ==> r.value < |rows| && rows[r.value].id == id
  {
    FirstIndex(rows, (b: Booking) => b.id == id)
  }

  /** `Booking.query.filter_by(date=date, time=time).first()`. */
  function FirstInSlot(rows: seq<Booking>, date: string, time: string): (r: Option<Booking>)
    ensures r.None? <==> !SlotTaken(rows, date, time)
    ensures r.Some? ==> r.value in rows && InSlot(r.value, date, time)
  {
    match FirstIndex(rows, (b: Booking) => InSlot(b, date, time))
    case None => None
    case Some(k) => Some(rows[k])
  }

  /** The occupant lookup made with JSON values. A null date or time becomes `IS NULL`,
      which no row satisfies because both columns are NOT NULL. */
  function OccupantOf(rows: seq<Booking>, date: Value, time: Value): (r: Option<Booking>)
    ensures r.Some? <==> date.Text? && time.Text? && SlotTaken(rows, date.s, time.s)
    ensures r.Some? ==> r.value in rows && InSlot(r.value, date.s, time.s)
  {
    if date.Text? && time.Text? then FirstInSlot(rows, date.s, time.s) else None
  }

  /** Adding and committing one row (`db.session.add` + `commit`), as the database
      does it: NOT NULL is checked column by column in table order, then the unique
      constraint, and only then is the row stored under a fresh id. */
  function Insert(l: Ledger, date: Value, time: Value, name: Value, phone: Value, service: Value,
                  createdAt: Option<string>): (r: Result<(Ledger, Booking), DbError>)
    ensures r.Failure? ==> r.error.NotNullViolation? || r.error == UniqueViolation
    ensures r.Success? <==>
      date.Text? && time.Text? && name.Text? && phone.Text? && service.Text?
      && !SlotTaken(l.rows, date.s, time.s)
    ensures r.Success? ==>
      var (l', b) := r.value;
      && b == Booking(l.nextId, date.s, time.s, name.s, phone.s, service.s, createdAt)
      && l'.rows == l.rows + [b]
      && l'.nextId > b.id
    ensures r.Success? && IdsBelow(l.rows, l.nextId) ==> !HasId(l.rows, r.value.1.id)
    ensures r.Success? && Valid(l) ==> Valid(r.value.0)
  {
    if date.Null? then Failure(NotNullViolation("date"))
    else if time.Null? then Failure(NotNullViolation("time"))
    else if name.Null? then Failure(NotNullViolation("name"))
    else if phone.Null? then Failure(NotNullViolation("phone"))
    else if service.Null? then Failure(NotNullViolation("service"))
    else if FirstInSlot(l.rows, date.s, time.s).Some? then Failure(UniqueViolation)
    else
      var b := Booking(l.nextId, date.s, time.s, name.s, phone.s, service.s, createdAt);
      Success((Ledger(l.rows + [b], l.nextId + 1), b))
  }

  /** Deleting the row at position `i` shifts the later rows down by one and keeps their order. */
  lemma DeleteShifts(rows: seq<Booking>, i: nat)
    requires i < |rows|
    ensures var rows' := rows[..i] + rows[i + 1..];
      && |rows'| == |rows| - 1
      && (forall j :: 0 <= j < i ==> rows'[j] == rows[j])
      && (forall j :: i < j < |rows| ==> rows'[j - 1] == rows[j])
      && (IdsAscending(rows) ==> IdsAscending(rows'))
  {
    var rows' := rows[..i] + rows[i + 1..];
    assert forall j :: 0 <= j < |rows'| ==> rows'[j] == rows[if j < i then j else j + 1];
  }

  /** Deleting the row at position `i` keeps the invariant. */
  lemma DeleteKeepsValid(l: Ledger, i: nat)
    requires i < |l.rows|
    ensures Valid(l) ==> Valid(Ledger(l.rows[..i] + l.rows[i + 1..], l.nextId))
  {
    var rows' := l.rows[..i] + l.rows[i + 1..];
    DeleteShifts(l.rows, i);
    assert forall j :: 0 <= j < |rows'| ==> rows'[j] == l.rows[if j < i then j else j + 1];
  }

  /** With unique ids, deleting position `i` removes exactly the row with that id. */
  lemma DeleteMembers(rows: seq<Booking>, i: nat)
    requires i < |rows|
    ensures IdsAscending(rows) ==> forall b :: b in rows[..i] + rows[i + 1..] <==> b in rows && b.id != rows[i].id
  {
    if !IdsAscending(rows) {
      return;
    }
    var rows' := rows[..i] + rows[i + 1..];
    DeleteShifts(rows, i);
    forall b | b in rows'
      ensures b in rows && b.id != rows[i].id
    {
      var j :| 0 <= j < |rows'| && rows'[j] == b;
      if j < i {
        assert rows'[j] == rows[j];
      } else {
        assert rows'[j] == rows[j + 1];
      }
    }
    forall b | b in rows && b.id != rows[i].id
      ensures b in rows'
    {
      var j :| 0 <= j < |rows| && rows[j] == b;
      if j < i {
        assert rows'[j] == rows[j];
      } else {
        assert rows'[j - 1] == rows[j];
      }
    }
  }

  /** Deleting and committing the row stored at position `i` (`db.session.delete` + `commit`). */
  function Delete(l: Ledger, i: nat): (l': Ledger)
    requires i < |l.rows|
    ensures |l'.rows| == |l.rows| - 1 && l'.nextId == l.nextId
    ensures IdsAscending(l.rows) ==> forall b :: b in l'.rows <==> b in l.rows && b.id != l.rows[i].id
    ensures Valid(l) ==> Valid(l')
  {
    DeleteKeepsValid(l, i);
    DeleteMembers(l.rows, i);
    Ledger(l.rows[..i] + l.rows[i + 1..], l.nextId)
  }

  /** The rows as a map from primary key to record (a later row would win on a repeated id, which `IdsAscending` rules out). */
  function Table(rows: seq<Booking>): (m: map<int, Booking>)
    ensures forall id :: id in m <==> HasId(rows, id)
    ensures forall id :: id in m ==> m[id].id == id && m[id] in rows
    ensures IdsAscending(rows) ==> forall i :: 0 <= i < |rows| ==> rows[i].id in m && m[rows[i].id] == rows[i]
  {
    if |rows| == 0 then map[]
    else
      var last := rows[|rows| - 1];
      var m := Table(rows[..|rows| - 1]);
      assert forall i :: 0 <= i < |rows| - 1 ==> rows[..|rows| - 1][i] == rows[i];
      m[last.id := last]
  }
}

=== FILE: collation.dfy ===
/**
 The order the database uses when the booking list is filtered by date
 (`Booking.date >= start_date` and `Booking.date <= end_date`). The `date`
 column is TEXT and is compared under the default binary collation: character
 by character by code point, a proper prefix sorting before the longer string.
 The order is stated once recursively (`LexLe`) and once by its reference
 reading (a prefix, or a smaller character at the first difference), and the
 two are proved to agree; it is also proved to be a total order.
 */
module Collation {

  /** `a <= b` under binary collation. */
  predicate LexLe(a: string, b: string)
    decreases |a|
  {
    if |a| == 0 then true
    else if |b| == 0 then false
    else if a[0] != b[0] then a[0] < b[0]
    else LexLe(a[1..], b[1..])
  }

  /** `lo <= s <= hi` under binary collation: the date filter of the list operation. */
  predicate InRange(s: string, lo: string, hi: string)
  {
    LexLe(lo, s) && LexLe(s, hi)
  }

  /** `a` is a (not necessarily proper) prefix of `b`. */
  ghost predicate IsPrefix(a: string, b: string)
  {
    |a| <= |b| && a == b[..|a|]
  }

  /** `a` and `b` first differ at position `k`, and there `a` has the smaller code point. */
  ghost predicate SmallerAt(a: string, b: string, k: int)
  {
    0 <= k < |a| && k < |b| && a[..k] == b[..k] && a[k] < b[k]
  }

  /** The reference reading of binary collation. */
  ghost predicate CollatesBefore(a: string, b: string)
  {
    IsPrefix(a, b) || exists k :: SmallerAt(a, b, k)
  }

  /** Shifting a first-difference witness past one equal leading character. */
  lemma SmallerAtTail(a: string, b: string, k: int)
    requires |a| > 0 && |b| > 0 && a[0] == b[0]
    ensures SmallerAt(a, b, k) <==> k > 0 && SmallerAt(a[1..], b[1..], k - 1)
  {
    if SmallerAt(a, b, k) && k > 0 {
      assert a[1..][..k - 1] == a[..k][1..];
      assert b[1..][..k - 1] == b[..k][1..];
    }
    if k > 0 && SmallerAt(a[1..], b[1..], k - 1) {
      assert a[..k] == [a[0]] + a[1..][..k - 1];
      assert b[..k] == [b[0]] + b[1..][..k - 1];
    }
  }

  /** The recursive definition agrees with the reference reading, in both directions. */
  lemma {:induction false} LexLeIsCollatesBefore(a: string, b: string)
    ensures LexLe(a, b) <==> CollatesBefore(a, b)
    decreases |a|
  {
    if |a| == 0 {
      assert IsPrefix(a, b);
    } else if |b| == 0 {
      assert !IsPrefix(a, b);
      assert forall k :: !SmallerAt(a, b, k);
    } else if a[0] != b[0] {
      assert a[..|a|][0] == a[0];
      assert !IsPrefix(a, b) by {
        if |a| <= |b| { assert b[..|a|][0] == b[0]; }
      }
      if a[0] < b[0] {
        assert a[..0] == b[..0];
        assert SmallerAt(a, b, 0);
      }
    } else {
      LexLeIsCollatesBefore(a[1..], b[1..]);
      assert IsPrefix(a, b) <==> IsPrefix(a[1..], b[1..]) by {
        if IsPrefix(a, b) {
          assert a[1..] == b[..|a|][1..];
        }
        if IsPrefix(a[1..], b[1..]) {
          assert a == [a[0]] + a[1..];
          assert b[..|a|] == [b[0]] + b[1..][..|a| - 1];
        }
      }
      forall k
        ensures SmallerAt(a, b, k) <==> k > 0 && SmallerAt(a[1..], b[1..], k - 1)
      {
        SmallerAtTail(a, b, k);
      }
      if exists k :: SmallerAt(a[1..], b[1..], k) {
        var k :| SmallerAt(a[1..], b[1..], k);
        assert SmallerAt(a, b, k + 1);
      }
    }
  }

  lemma {:induction false} LexLeReflexive(a: string)
    ensures LexLe(a, a)
    decreases |a|
  {
    if |a| > 0 {
      LexLeReflexive(a[1..]);
    }
  }

  lemma {:induction false} LexLeAntisymmetric(a: string, b: string)
    requires LexLe(a, b) && LexLe(b, a)
    ensures a == b
    decreases |a|
  {
    if |a| > 0 {
      LexLeAntisymmetric(a[1..], b[1..]);
      assert a == [a[0]] + a[1..] && b == [b[0]] + b[1..];
    }
  }

  lemma {:induction false} LexLeTransitive(a: string, b: string, c: string)
    requires LexLe(a, b) && LexLe(b, c)
    ensures LexLe(a, c)
    decreases |a|
  {
    if |a| > 0 && a[0] == b[0] && b[0] == c[0] {
      LexLeTransitive(a[1..], b[1..], c[1..]);
    }
  }

  lemma {:induction false} LexLeTotal(a: string, b: string)
    ensures LexLe(a, b) || LexLe(b, a)
    decreases |a|
  {
    if |a| > 0 && |b| > 0 && a[0] == b[0] {
      LexLeTotal(a[1..], b[1..]);
    }
  }

  /** A shared prefix does not affect the comparison. */
  lemma {:induction false} LexLeCommonPrefix(p: string, a: string, b: string)
    ensures LexLe(p + a, p + b) <==> LexLe(a, b)
    decreases |p|
  {
    if |p| > 0 {
      assert (p + a)[1..] == p[1..] + a;
      assert (p + b)[1..] == p[1..] + b;
      LexLeCommonPrefix(p[1..], a, b);
    } else {
      assert p + a == a && p + b == b;
    }
  }
}

=== FILE: handlers.dfy ===
/**
 The four JSON route handlers of app.py as pure transitions over the ledger:
 each takes the ledger and the already-parsed request, plus the fault (if any)
 the database raises while serving it, and yields the reply, the ledger after
 the request and the real-time events emitted, in order.
 */
module Handlers {
  import opened Wrappers
  import opened Search
  import opened Collation
  import opened BookingTable

  /** What the database does while one request is served. */
  datatype Fault =
    | NoFault
    | ReadFault(reason: string)     // the request's first query raises
    | CommitFault(reason: string)   // the queries succeed, the commit raises

  /** The two broadcast notifications, each carrying a booking's JSON rendering. */
  datatype Event = NewBooking(booking: Booking) | BookingCancelled(booking: Booking)

  /** Why a request was refused. */
  datatype ApiError =
    | NotJsonObject               // the create body did not parse to a JSON object
    | MissingField(field: string)
    | SlotBooked
    | BookingNotFound
    | DateTimeRequired
    | Internal(cause: DbError)

  /** The HTTP status of a refusal: 400 for missing input, 404, 409, and 500 for every
      exception the handlers catch. */
  function StatusOf(e: ApiError): (code: int)
    ensures 400 <= code < 600
    ensures code == 500 <==> ErrorText(e).None?
  {
    match e
    case NotJsonObject => 500
    case MissingField(_) => 400
    case SlotBooked => 409
    case BookingNotFound => 404
    case DateTimeRequired => 400
    case Internal(_) => 500
  }

  /** The `error` text of a refusal when the handler writes it itself. A 500 replies with
      the text of whatever exception was raised, which lies outside the model (None). */
  function ErrorText(e: ApiError): (t: Option<string>)
    ensures t.Some? <==> !(e.NotJsonObject? || e.Internal?)
  {
    match e
    case MissingField(f) => Some("Missing required field: " + f)
    case SlotBooked => Some("This time slot is already booked")
    case BookingNotFound => Some("Booking not found")
    case DateTimeRequired => Some("Date and time are required")
    case NotJsonObject => None
    case Internal(_) => None
  }

  /** Only the missing-field text starts with 'M'. */
  lemma ErrorTextInitial(e: ApiError)
    ensures ErrorText(e).Some? ==> |ErrorText(e).value| > 0 && (ErrorText(e).value[0] == 'M' <==> e.MissingField?)
  {
  }

  /** A client can tell the refusals apart by their text: two refusals with the same
      handler-written text are the same refusal. */
  lemma {:induction false} ErrorTextIdentifies(e1: ApiError, e2: ApiError)
    requires ErrorText(e1).Some? && ErrorText(e1) == ErrorText(e2)
    ensures e1 == e2
  {
    var prefix := "Missing required field: ";
    if e1.MissingField? && e2.MissingField? {
      assert prefix + e1.field == prefix + e2.field;
      assert e1.field == (prefix + e1.field)[|prefix|..];
    } else if e1.MissingField? || e2.MissingField? {
      ErrorTextInitial(e1);
      ErrorTextInitial(e2);
      assert false;
    }
  }

  /** The JSON reply of a handler. */
  datatype Reply =
    | Listed(bookings: seq<Booking>)
    | Created(booking: Booking)        // message "Booking created successfully"
    | Cancelled                        // message "Booking cancelled successfully"
    | Availability(available: bool, occupant: Option<Booking>)  // JSON key `booking`
    | Failed(error: ApiError)

  /** The HTTP status of a reply: 2xx exactly for the replies that are not refusals. */
  function Status(r: Reply): (code: int)
    ensures 200 <= code < 300 <==> !r.Failed?
    ensures r.Created? <==> code == 201
  {
    match r
    case Listed(_) => 200
    case Created(_) => 201
    case Cancelled => 200
    case Availability(_, _) => 200
    case Failed(e) => StatusOf(e)
  }

  /** The result of serving one request. */
  datatype Outcome = Outcome(reply: Reply, ledger: Ledger, events: seq<Event>)

  /** A refusal: the session is rolled back and nothing is emitted. */
  function Refuse(l: Ledger, e: ApiError): (o: Outcome)
    ensures o.reply.Failed? && o.ledger == l && o.events == []
  {
    Outcome(Failed(e), l, [])
  }

  /** A query argument counts only when it is present and non-empty (Python truthiness). */
  predicate Given(arg: Option<string>)
  {
    arg.Some? && |arg.value| > 0
  }

  /** The rows, in storage order, whose date lies in [lo, hi] under binary collation. */
  function SelectDates(rows: seq<Booking>, lo: string, hi: string): (r: seq<Booking>)
    ensures forall b :: b in r <==> b in rows && InRange(b.date, lo, hi)
    ensures forall b :: multiset(r)[b] == if InRange(b.date, lo, hi) then multiset(rows)[b] else 0
    ensures |r| <= |rows|
  {
    if |rows| == 0 then []
    else
      var rest := SelectDates(rows[1..], lo, hi);
      assert rows == [rows[0]] + rows[1..];
      assert multiset(rows) == multiset([rows[0]]) + multiset(rows[1..]);
      assert forall b :: b in rows <==> b == rows[0] || b in rows[1..];
      if InRange(rows[0].date, lo, hi) then [rows[0]] + rest else rest
  }

  /** The filter keeps storage order: filtering a concatenation filters each part. */
  lemma {:induction false} SelectDatesAppend(a: seq<Booking>, b: seq<Booking>, lo: string, hi: string)
    ensures SelectDates(a + b, lo, hi) == SelectDates(a, lo, hi) + SelectDates(b, lo, hi)
    decreases |a|
  {
    if |a| == 0 {
      assert a + b == b;
    } else {
      assert (a + b)[0] == a[0];
      assert (a + b)[1..] == a[1..] + b;
      SelectDatesAppend(a[1..], b, lo, hi);
    }
  }

  /** GET /api/bookings (`get_bookings`). */
  function ListBookings(l: Ledger, startDate: Option<string>, endDate: Option<string>, fault: Fault): (o: Outcome)
    ensures o.ledger == l && o.events == []
    ensures o.reply.Listed? || o.reply.Failed?
    ensures o.reply.Failed? <==> fault.ReadFault?
    ensures fault.ReadFault? ==> o.reply.error == Internal(Unavailable(fault.reason))
    ensures o.reply.Listed? && Given(startDate) && Given(endDate) ==>
      forall b :: b in o.reply.bookings <==> b in l.rows && InRange(b.date, startDate.value, endDate.value)
    ensures o.reply.Listed? && Given(startDate) && Given(endDate) ==>
      forall b :: multiset(o.reply.bookings)[b] ==
        if InRange(b.date, startDate.value, endDate.value) then multiset(l.rows)[b] else 0
    ensures o.reply.Listed? && !(Given(startDate) && Given(endDate)) ==> o.reply.bookings == l.rows
  {
    if fault.ReadFault? then Refuse(l, Internal(Unavailable(fault.reason)))
    else if Given(startDate) && Given(endDate) then
      Outcome(Listed(SelectDates(l.rows, startDate.value, endDate.value)), l, [])
    else Outcome(Listed(l.rows), l, [])
  }

  /** The body fields create requires, in the order they are checked. */
  const RequiredFields: seq<string> := ["date", "time", "name", "phone", "service"]

  /** Every required field is present (a null or an empty string counts as present). */
  predicate Complete(data: map<string, Value>)
  {
    "date" in data && "time" in data && "name" in data && "phone" in data && "service" in data
  }

  /** `field` is the first required field, in checking order, that `data` lacks. */
  predicate FirstMissing(data: map<string, Value>, field: string)
  {
    exists k :: 0 <= k < |RequiredFields| && RequiredFields[k] == field && field !in data
      && forall i :: 0 <= i < k ==> RequiredFields[i] in data
  }

  /** Every required field holds a string rather than null. */
  predicate AllText(data: map<string, Value>)
    requires Complete(data)
  {
    data["date"].Text? && data["time"].Text? && data["name"].Text? && data["phone"].Text? && data["service"].Text?
  }

  /** The slot that `data` asks for is held by a row (a null date or time matches none). */
  predicate Occupied(rows: seq<Booking>, data: map<string, Value>)
    requires Complete(data)
  {
    data["date"].Text? && data["time"].Text? && SlotTaken(rows, data["date"].s, data["time"].s)
  }

  /** The body gets past the presence check and the slot read: the row is added and committed. */
  predicate ReachesInsert(rows: seq<Booking>, data: map<string, Value>, fault: Fault)
  {
    Complete(data) && !fault.ReadFault? && !Occupied(rows, data)
  }

  /** `b` holds the body's five fields verbatim and the creation time `now`. */
  predicate StoredFrom(b: Booking, data: map<string, Value>, now: string)
    requires Complete(data)
  {
    && data["date"] == Text(b.date) && data["time"] == Text(b.time) && data["name"] == Text(b.name)
    && data["phone"] == Text(b.phone) && data["service"] == Text(b.service) && b.createdAt == Some(now)
  }

  /** POST /api/bookings (`create_booking`). `data` is the parsed body (None when it
      is not a JSON object) and `now` the clock reading stored as `created_at`. */
  function CreateBooking(l: Ledger, data: Option<map<string, Value>>, now: string, fault: Fault): (o: Outcome)
    ensures o.reply.Created? || o.reply.Failed?
    ensures !o.reply.Created? ==> o.ledger == l && o.events == []
    ensures data.None? ==> o.reply == Failed(NotJsonObject)
    ensures data.Some? && !Complete(data.value) ==>
      o.reply.Failed? && o.reply.error.MissingField? && FirstMissing(data.value, o.reply.error.field)
    ensures data.Some? && Complete(data.value) && fault.ReadFault? ==>
      o.reply == Failed(Internal(Unavailable(fault.reason)))
    ensures data.Some? && Complete(data.value) && !fault.ReadFault? && Occupied(l.rows, data.value) ==>
      o.reply == Failed(SlotBooked)
    ensures data.Some? && ReachesInsert(l.rows, data.value, fault) && !AllText(data.value) ==>
      o.reply.Failed? && o.reply.error.Internal? && o.reply.error.cause.NotNullViolation?
      && o.reply.error.cause.column in data.value && data.value[o.reply.error.cause.column].Null?
    ensures data.Some? && ReachesInsert(l.rows, data.value, fault) && AllText(data.value) && fault.CommitFault? ==>
      o.reply == Failed(Internal(Unavailable(fault.reason)))
    ensures o.reply.Created? <==>
      data.Some? && Complete(data.value) && fault.NoFault? && AllText(data.value) && !Occupied(l.rows, data.value)
    ensures o.reply.Created? ==>
      var b := o.reply.booking;
      && StoredFrom(b, data.value, now)
      && (IdsBelow(l.rows, l.nextId) ==> !HasId(l.rows, b.id))
      && o.ledger.rows == l.rows + [b]
      && o.events == [NewBooking(b)]
    ensures Valid(l) ==> Valid(o.ledger)
  {
    if data.None? then Refuse(l, NotJsonObject)
    else
      var d := data.value;
      match FirstIndex(RequiredFields, (f: string) => f !in d)
      case Some(k) => Refuse(l, MissingField(RequiredFields[k]))
      case None =>
        if fault.ReadFault? then Refuse(l, Internal(Unavailable(fault.reason)))
        else if OccupantOf(l.rows, d["date"], d["time"]).Some? then Refuse(l, SlotBooked)
        else match Insert(l, d["date"], d["time"], d["name"], d["phone"], d["service"], Some(now))
          case Failure(e) => Refuse(l, Internal(e))
          case Success((l', b)) =>
            if fault.CommitFault? then Refuse(l, Internal(Unavailable(fault.reason)))
            else Outcome(Created(b), l', [NewBooking(b)])
  }

  /** DELETE /api/bookings/<id> (`cancel_booking`). */
  function CancelBooking(l: Ledger, id: int, fault: Fault): (o: Outcome)
    ensures o.reply.Cancelled? || o.reply.Failed?
    ensures !o.reply.Cancelled? ==> o.ledger == l && o.events == []
    ensures fault.ReadFault? ==> o.reply == Failed(Internal(Unavailable(fault.reason)))
    ensures !fault.ReadFault? && !HasId(l.rows, id) ==> o.reply == Failed(BookingNotFound)
    ensures fault.CommitFault? && HasId(l.rows, id) ==> o.reply == Failed(Internal(Unavailable(fault.reason)))
    ensures o.reply.Cancelled? <==> fault.NoFault? && HasId(l.rows, id)
    ensures o.reply.Cancelled? ==>
      exists i :: 0 <= i < |l.rows| && l.rows[i].id == id
        && o.ledger.rows == l.rows[..i] + l.rows[i + 1..]
        && o.events == [BookingCancelled(l.rows[i])]
    ensures o.reply.Cancelled? && Valid(l) ==> !HasId(o.ledger.rows, id)
    ensures Valid(l) ==> Valid(o.ledger)
  {
    if fault.ReadFault? then Refuse(l, Internal(Unavailable(fault.reason)))
    else match IndexOfId(l.rows, id)
      case None => Refuse(l, BookingNotFound)
      case Some(i) =>
        if fault.CommitFault? then Refuse(l, Internal(Unavailable(fault.reason)))
        else
          var l' := Delete(l, i);
          Outcome(Cancelled, l', [BookingCancelled(l.rows[i])])
  }

  /** GET /api/bookings/check (`check_availability`). */
  function CheckAvailability(l: Ledger, date: Option<string>, time: Option<string>, fault: Fault): (o: Outcome)
    ensures o.ledger == l && o.events == []
    ensures o.reply.Availability? || o.reply.Failed?
    ensures !(Given(date) && Given(time)) ==> o.reply == Failed(DateTimeRequired)
    ensures Given(date) && Given(time) && fault.ReadFault? ==> o.reply == Failed(Internal(Unavailable(fault.reason)))
    ensures o.reply.Availability? <==> Given(date) && Given(time) && !fault.ReadFault?
    ensures o.reply.Availability? ==> (o.reply.available <==> !SlotTaken(l.rows, date.value, time.value))
    ensures o.reply.Availability? ==> (o.reply.available <==> o.reply.occupant.None?)
    ensures o.reply.Availability? && o.reply.occupant.Some? ==>
      o.reply.occupant.value in l.rows && InSlot(o.reply.occupant.value, date.value, time.value)
  {
    if !Given(date) || !Given(time) then Refuse(l, DateTimeRequired)
    else if fault.ReadFault? then Refuse(l, Internal(Unavailable(fault.reason)))
    else
      var occupant := FirstInSlot(l.rows, date.value, time.value);
      Outcome(Availability(occupant.None?, occupant), l, [])
  }
}

=== FILE: properties.dfy ===
/**
 Properties that relate several handler calls: the map view of each mutation,
 runs of arbitrary request sequences (the one-booking-per-slot invariant, the
 event log replaying to the final table, events only on success), the
 sequential reading of the uniqueness guarantee, and the create/read round trip.
 */
module Properties {
  import opened Wrappers
  import opened BookingTable
  import opened Handlers

  // ---------------------------------------------------------------------------
  // The table as a map from id to row

  lemma TableAppend(rows: seq<Booking>, b: Booking)
    requires IdsAscending(rows + [b])
    ensures b.id !in Table(rows)
    ensures Table(rows + [b]) == Table(rows)[b.id := b]
  {
    var rows' := rows + [b];
    assert rows'[..|rows|] == rows;
    forall i | 0 <= i < |rows|
      ensures rows[i].id != b.id
    {
      assert rows'[i].id < rows'[|rows|].id;
    }
  }

  lemma MapWithout(m: map<int, Booking>, m': map<int, Booking>, gone: int)
    requires forall id :: id in m' ==> id in m && id != gone && m'[id] == m[id]
    requires forall id :: id in m && id != gone ==> id in m'
    ensures m' == m - {gone}
  {
    var r := m - {gone};
    forall id
      ensures id in m' <==> id in r
    {
      if id in m' {
        assert id in m && id != gone;
      }
    }
    assert m'.Keys == r.Keys;
  }

  /** After deleting position `i`, every remaining id maps to the same row as before. */
  lemma RemoveKeepsRows(rows: seq<Booking>, i: nat, m: map<int, Booking>, m': map<int, Booking>)
    requires IdsAscending(rows) && i < |rows|
    requires m == Table(rows) && m' == Table(rows[..i] + rows[i + 1..])
    ensures forall id :: id in m' ==> id in m && id != rows[i].id && m'[id] == m[id]
  {
    var rows' := rows[..i] + rows[i + 1..];
    DeleteShifts(rows, i);
    forall id | id in m'
      ensures id in m && id != rows[i].id && m'[id] == m[id]
    {
      var j :| 0 <= j < |rows'| && rows'[j].id == id;
      if j < i {
        assert rows'[j] == rows[j];
      } else {
        assert rows'[j] == rows[j + 1];
      }
    }
  }

  /** After deleting position `i`, every other id is still present. */
  lemma RemoveLosesOnlyOne(rows: seq<Booking>, i: nat, m: map<int, Booking>, m': map<int, Booking>)
    requires IdsAscending(rows) && i < |rows|
    requires m == Table(rows) && m' == Table(rows[..i] + rows[i + 1..])
    ensures forall id :: id in m && id != rows[i].id ==> id in m'
  {
    var rows' := rows[..i] + rows[i + 1..];
    DeleteShifts(rows, i);
    forall id | id in m && id != rows[i].id
      ensures id in m'
    {
      var j :| 0 <= j < |rows| && rows[j].id == id;
      if j < i {
        assert rows'[j] == rows[j];
      } else {
        assert rows'[j - 1] == rows[j];
      }
    }
  }

  lemma TableRemove(rows: seq<Booking>, i: nat)
    requires IdsAscending(rows) && i < |rows|
    ensures Table(rows[..i] + rows[i + 1..]) == Table(rows) - {rows[i].id}
  {
    var m, m' := Table(rows), Table(rows[..i] + rows[i + 1..]);
    RemoveKeepsRows(rows, i, m, m');
    RemoveLosesOnlyOne(rows, i, m, m');
    MapWithout(m, m', rows[i].id);
  }

  /** A successful create adds exactly one row, under an id not in use, and changes no other row. */
  lemma CreateAddsOneRow(l: Ledger, data: Option<map<string, Value>>, now: string, fault: Fault)
    requires Valid(l)
    requires CreateBooking(l, data, now, fault).reply.Created?
    ensures var o := CreateBooking(l, data, now, fault);
      && o.reply.booking.id !in Table(l.rows)
      && Table(o.ledger.rows) == Table(l.rows)[o.reply.booking.id := o.reply.booking]
  {
    var o := CreateBooking(l, data, now, fault);
    TableAppend(l.rows, o.reply.booking);
  }

  /** A successful cancel removes exactly the row with that id, and announces it as it was. */
  lemma CancelRemovesOneRow(l: Ledger, id: int, fault: Fault)
    requires Valid(l)
    requires CancelBooking(l, id, fault).reply.Cancelled?
    ensures id in Table(l.rows)
    ensures var o := CancelBooking(l, id, fault);
      && Table(o.ledger.rows) == Table(l.rows) - {id}
      && o.events == [BookingCancelled(Table(l.rows)[id])]
  {
    var o := CancelBooking(l, id, fault);
    var i :| 0 <= i < |l.rows| && l.rows[i].id == id
      && o.ledger.rows == l.rows[..i] + l.rows[i + 1..]
      && o.events == [BookingCancelled(l.rows[i])];
    TableRemove(l.rows, i);
  }

  // ---------------------------------------------------------------------------
  // Runs of requests

  /** One inbound request, already parsed, with the fault the database raises while serving it. */
  datatype Request =
    | ListRequest(startDate: Option<string>, endDate: Option<string>, listFault: Fault)
    | CreateRequest(data: Option<map<string, Value>>, now: string, createFault: Fault)
    | CancelRequest(id: int, cancelFault: Fault)
    | CheckRequest(date: Option<string>, time: Option<string>, checkFault: Fault)

  function Serve(l: Ledger, req: Request): (o: Outcome)
    ensures Valid(l) ==> Valid(o.ledger)
    ensures !(o.reply.Created? || o.reply.Cancelled?) ==> o.ledger == l && o.events == []
    ensures o.reply.Created? ==> o.events == [NewBooking(o.reply.booking)]
    ensures o.reply.Cancelled? ==> |o.events| == 1 && o.events[0].BookingCancelled?
  {
    match req
    case ListRequest(s, e, f) => ListBookings(l, s, e, f)
    case CreateRequest(d, now, f) => CreateBooking(l, d, now, f)
    case CancelRequest(id, f) => CancelBooking(l, id, f)
    case CheckRequest(d, t, f) => CheckAvailability(l, d, t, f)
  }

  /** What a sequential run leaves behind: the final ledger, every event emitted, every
      reply, and the events each request emitted (`emitted[k]` for `reqs[k]`). */
  datatype Trace = Trace(ledger: Ledger, events: seq<Event>, replies: seq<Reply>, emitted: seq<seq<Event>>)

  /** Serving `reqs` one after another. The one-booking-per-slot invariant, with
      ascending fresh ids, holds after any sequential run. */
  function Run(l: Ledger, reqs: seq<Request>): (t: Trace)
    ensures |t.replies| == |reqs| && |t.emitted| == |reqs|
    ensures Valid(l) ==> Valid(t.ledger)
    decreases |reqs|
  {
    if |reqs| == 0 then Trace(l, [], [], [])
    else
      var o := Serve(l, reqs[0]);
      var rest := Run(o.ledger, reqs[1..]);
      Trace(rest.ledger, o.events + rest.events, [o.reply] + rest.replies, [o.events] + rest.emitted)
  }

  /** A run started on the empty table `db.create_all` leaves behind keeps the invariant,
      and its events, replayed by a viewer that starts with no rows, give the final table. */
  lemma FromCreateAll(reqs: seq<Request>)
    ensures Valid(Run(Empty, reqs).ledger)
    ensures Replay(map[], Run(Empty, reqs).events) == Some(Table(Run(Empty, reqs).ledger.rows))
  {
    assert Valid(Empty);
    RunReplay(Empty, reqs);
  }

  /** A viewer's copy of the table, updated by one notification. The viewer checks
      each notification against its copy: a new booking must carry an id it does not
      hold yet, and a cancellation must carry the very row it holds under that id.
      A notification that does not fit the copy leaves it unusable (None). */
  function Apply(m: map<int, Booking>, e: Event): (r: Option<map<int, Booking>>)
    ensures r.Some? <==> match e
      case NewBooking(b) => b.id !in m
      case BookingCancelled(b) => b.id in m && m[b.id] == b
    ensures r.Some? ==> r.value.Keys == match e
      case NewBooking(b) => m.Keys + {e.booking.id}
      case BookingCancelled(b) => m.Keys - {e.booking.id}
  {
    match e
    case NewBooking(b) => if b.id in m then None else Some(m[b.id := b])
    case BookingCancelled(b) => if b.id in m && m[b.id] == b then Some(m - {b.id}) else None
  }

  /** The viewer's copy after a sequence of notifications, if every one passed its check. */
  function Replay(m: map<int, Booking>, events: seq<Event>): Option<map<int, Booking>>
    decreases |events|
  {
    if |events| == 0 then Some(m)
    else match Apply(m, events[0])
      case None => None
      case Some(m') => Replay(m', events[1..])
  }

  /** The per-request event lists, in order, as one log. */
  function Flatten(steps: seq<seq<Event>>): seq<Event>
  {
    if |steps| == 0 then [] else steps[0] + Flatten(steps[1..])
  }

  /** What a request with reply `reply` announces: its `new_booking` after a create, one
      `booking_cancelled` after a cancel, and nothing after any other reply. */
  predicate Announces(reply: Reply, events: seq<Event>)
  {
    match reply
    case Created(b) => events == [NewBooking(b)]
    case Cancelled => |events| == 1 && events[0].BookingCancelled?
    case _ => events == []
  }

  /** The replies that changed the ledger. */
  function Mutations(replies: seq<Reply>): nat
  {
    if |replies| == 0 then 0
    else (if replies[0].Created? || replies[0].Cancelled? then 1 else 0) + Mutations(replies[1..])
  }

  lemma {:induction false} ReplayAppend(m: map<int, Booking>, e1: seq<Event>, e2: seq<Event>, m1: map<int, Booking>)
    requires Replay(m, e1) == Some(m1)
    ensures Replay(m, e1 + e2) == Replay(m1, e2)
    decreases |e1|
  {
    if |e1| == 0 {
      assert e1 + e2 == e2;
    } else {
      assert (e1 + e2)[0] == e1[0];
      assert (e1 + e2)[1..] == e1[1..] + e2;
      ReplayAppend(Apply(m, e1[0]).value, e1[1..], e2, m1);
    }
  }

  /** A single notification replays as one checked update. */
  lemma ReplayOne(m: map<int, Booking>, e: Event)
    ensures Replay(m, [e]) == Apply(m, e)
  {
    if Apply(m, e).Some? {
      assert [e][1..] == [];
    }
  }

  lemma CreateReplay(l: Ledger, data: Option<map<string, Value>>, now: string, fault: Fault)
    requires Valid(l)
    ensures var o := CreateBooking(l, data, now, fault);
      Replay(Table(l.rows), o.events) == Some(Table(o.ledger.rows))
  {
    var o := CreateBooking(l, data, now, fault);
    if o.reply.Created? {
      CreateAddsOneRow(l, data, now, fault);
      ReplayOne(Table(l.rows), NewBooking(o.reply.booking));
    }
  }

  lemma CancelReplay(l: Ledger, id: int, fault: Fault)
    requires Valid(l)
    ensures var o := CancelBooking(l, id, fault);
      Replay(Table(l.rows), o.events) == Some(Table(o.ledger.rows))
  {
    var o := CancelBooking(l, id, fault);
    if o.reply.Cancelled? {
      CancelRemovesOneRow(l, id, fault);
      ReplayOne(Table(l.rows), BookingCancelled(Table(l.rows)[id]));
    }
  }

  /** One request's events pass the viewer's checks and turn the table before it into the table after it. */
  lemma StepReplay(l: Ledger, req: Request)
    requires Valid(l)
    ensures Replay(Table(l.rows), Serve(l, req).events) == Some(Table(Serve(l, req).ledger.rows))
  {
    match req
    case CreateRequest(data, now, fault) => CreateReplay(l, data, now, fault);
    case CancelRequest(id, fault) => CancelReplay(l, id, fault);
    case ListRequest(_, _, _) =>
    case CheckRequest(_, _, _) =>
  }

  /** Every change to the table is announced with the right payload: each new booking
      carries an id not yet shown, each cancellation carries the row exactly as stored,
      and replaying the emitted events on the initial table yields the final table. */
  lemma {:induction false} RunReplay(l: Ledger, reqs: seq<Request>)
    requires Valid(l)
    ensures Replay(Table(l.rows), Run(l, reqs).events) == Some(Table(Run(l, reqs).ledger.rows))
    decreases |reqs|
  {
    if |reqs| > 0 {
      var o := Serve(l, reqs[0]);
      StepReplay(l, reqs[0]);
      RunReplay(o.ledger, reqs[1..]);
      ReplayAppend(Table(l.rows), o.events, Run(o.ledger, reqs[1..]).events, Table(o.ledger.rows));
    }
  }

  /** Exactly one event per successful create or cancel, and none otherwise: the log is
      the requests' own events in order, and each request announces what its reply says. */
  lemma {:induction false} EventsOnlyOnSuccess(l: Ledger, reqs: seq<Request>)
    ensures var t := Run(l, reqs);
      && t.events == Flatten(t.emitted)
      && (forall k :: 0 <= k < |reqs| ==> Announces(t.replies[k], t.emitted[k]))
      && |t.events| == Mutations(t.replies)
    decreases |reqs|
  {
    if |reqs| > 0 {
      var o := Serve(l, reqs[0]);
      var t := Run(l, reqs);
      var rest := Run(o.ledger, reqs[1..]);
      EventsOnlyOnSuccess(o.ledger, reqs[1..]);
      assert t.replies[0] == o.reply && t.replies[1..] == rest.replies;
      assert t.emitted[0] == o.events && t.emitted[1..] == rest.emitted;
      forall k | 0 <= k < |reqs|
        ensures Announces(t.replies[k], t.emitted[k])
      {
        if k > 0 {
          assert t.replies[k] == rest.replies[k - 1] && t.emitted[k] == rest.emitted[k - 1];
        }
      }
    }
  }

  // ---------------------------------------------------------------------------
  // Reading the created row back after the commit

  /** `create_booking` as written. The commit expires the new instance, so the
      `to_dict()` that builds the `new_booking` payload and the reply reads the row back
      from the database. `reloadFault` is what that read raises, if anything: the row
      stays committed, the handler replies 500 and emits nothing. */
  function CreateBookingAsWritten(l: Ledger, data: Option<map<string, Value>>, now: string, fault: Fault,
                                  reloadFault: Option<string>): (o: Outcome)
    ensures Valid(l) ==> Valid(o.ledger)
    ensures o.reply.Created? ==> o.events == [NewBooking(o.reply.booking)]
    ensures !o.reply.Created? ==> o.events == []
    ensures o.reply.Failed? && o.ledger != l ==>
      && reloadFault.Some? && StatusOf(o.reply.error) == 500
      && |o.ledger.rows| == |l.rows| + 1 && o.ledger.rows[..|l.rows|] == l.rows
  {
    var o := CreateBooking(l, data, now, fault);
    if o.reply.Created? && reloadFault.Some? then Outcome(Failed(Internal(Unavailable(reloadFault.value))), o.ledger, [])
    else o
  }

  /** A failing read-back after a create that would have succeeded replies 500, yet the
      row is stored and never announced: replaying the events no longer gives the table. */
  lemma ReloadFaultKeepsRowUnannounced(l: Ledger, data: Option<map<string, Value>>, now: string, reason: string)
    requires Valid(l)
    requires CreateBooking(l, data, now, NoFault).reply.Created?
    ensures var o := CreateBookingAsWritten(l, data, now, NoFault, Some(reason));
      && o.reply.Failed? && StatusOf(o.reply.error) == 500
      && o.ledger != l
      && Replay(Table(l.rows), o.events) != Some(Table(o.ledger.rows))
  {
    var o := CreateBookingAsWritten(l, data, now, NoFault, Some(reason));
    var b := CreateBooking(l, data, now, NoFault).reply.booking;
    CreateAddsOneRow(l, data, now, NoFault);
    assert b.id in Table(o.ledger.rows) && b.id !in Table(l.rows);
  }

  // ---------------------------------------------------------------------------
  // Uniqueness, read sequentially

  /** The body of a create request for slot (date, time). */
  predicate AsksFor(req: Request, date: string, time: string)
  {
    req.CreateRequest? && req.data.Some? && Complete(req.data.value)
    && req.data.value["date"] == Text(date) && req.data.value["time"] == Text(time)
  }

  /** Once a row holds (date, time), every later create for that slot that gets past the
      first read is refused with 409. */
  lemma SlotStaysTaken(l: Ledger, req: Request, date: string, time: string)
    requires SlotTaken(l.rows, date, time)
    requires AsksFor(req, date, time) && !req.createFault.ReadFault?
    ensures Serve(l, req).reply == Failed(SlotBooked)
  {
  }

  /** Of any run of creates for the same slot, at most one succeeds, and none does
      when the slot is already held. */
  lemma {:induction false} SameSlotAtMostOnce(l: Ledger, reqs: seq<Request>, date: string, time: string)
    requires forall k :: 0 <= k < |reqs| ==> AsksFor(reqs[k], date, time)
    ensures Mutations(Run(l, reqs).replies) <= 1
    ensures SlotTaken(l.rows, date, time) ==> Mutations(Run(l, reqs).replies) == 0
    decreases |reqs|
  {
    if |reqs| > 0 {
      var o := Serve(l, reqs[0]);
      var t := Run(l, reqs);
      SameSlotAtMostOnce(o.ledger, reqs[1..], date, time);
      assert t.replies[0] == o.reply && t.replies[1..] == Run(o.ledger, reqs[1..]).replies;
      if o.reply.Created? {
        var b := o.reply.booking;
        assert o.ledger.rows[|l.rows|] == b;
        assert SlotTaken(o.ledger.rows, date, time);
      }
    }
  }

  /** A create request that will succeed: a full string body for slot (date, time), and no fault. */
  predicate Bookable(req: Request, date: string, time: string)
  {
    AsksFor(req, date, time) && AllText(req.data.value) && req.createFault.NoFault?
  }

  /** Creates for pairwise distinct free slots all succeed, whatever their order. */
  lemma {:induction false} DistinctSlotsAllSucceed(l: Ledger, reqs: seq<Request>, slots: seq<(string, string)>)
    requires |slots| == |reqs|
    requires forall k :: 0 <= k < |reqs| ==> Bookable(reqs[k], slots[k].0, slots[k].1)
    requires forall j, k :: 0 <= j < k < |slots| ==> slots[j] != slots[k]
    requires forall k :: 0 <= k < |slots| ==> !SlotTaken(l.rows, slots[k].0, slots[k].1)
    ensures Mutations(Run(l, reqs).replies) == |reqs|
    ensures forall k :: 0 <= k < |reqs| ==> Run(l, reqs).replies[k].Created?
    decreases |reqs|
  {
    if |reqs| > 0 {
      var o := Serve(l, reqs[0]);
      var t := Run(l, reqs);
      assert o.reply.Created?;
      var b := o.reply.booking;
      forall k | 0 <= k < |slots[1..]|
        ensures !SlotTaken(o.ledger.rows, slots[1..][k].0, slots[1..][k].1)
      {
        assert slots[1..][k] == slots[k + 1] != slots[0];
        assert InSlot(b, slots[0].0, slots[0].1);
        forall i | 0 <= i < |o.ledger.rows|
          ensures !InSlot(o.ledger.rows[i], slots[k + 1].0, slots[k + 1].1)
        {
          if i < |l.rows| {
            assert o.ledger.rows[i] == l.rows[i];
          }
        }
      }
      DistinctSlotsAllSucceed(o.ledger, reqs[1..], slots[1..]);
      assert t.replies[0] == o.reply && t.replies[1..] == Run(o.ledger, reqs[1..]).replies;
    }
  }

  // ---------------------------------------------------------------------------
  // Round trips

  /** Cancelling the same id twice: 200, then 404. */
  lemma CancelTwice(l: Ledger, id: int)
    requires Valid(l) && HasId(l.rows, id)
    ensures CancelBooking(l, id, NoFault).reply == Cancelled
    ensures CancelBooking(CancelBooking(l, id, NoFault).ledger, id, NoFault).reply == Failed(BookingNotFound)
  {
  }

  /** In a table without duplicate slots, the slot lookup finds the row that holds the slot. */
  lemma {:induction false} FirstInSlotFinds(rows: seq<Booking>, b: Booking)
    requires SlotsUnique(rows) && b in rows
    ensures FirstInSlot(rows, b.date, b.time) == Some(b)
  {
    var r := FirstInSlot(rows, b.date, b.time);
    var j :| 0 <= j < |rows| && rows[j] == b;
    var i :| 0 <= i < |rows| && rows[i] == r.value;
    if i < j {
      assert !InSlot(rows[j], rows[i].date, rows[i].time);
    } else if j < i {
      assert !InSlot(rows[i], rows[j].date, rows[j].time);
    }
  }

  /** A booking just created is listed verbatim and makes its slot unavailable, the
      availability check returning that very row. */
  lemma CreateThenRead(l: Ledger, data: Option<map<string, Value>>, now: string)
    requires Valid(l)
    requires CreateBooking(l, data, now, NoFault).reply.Created?
    ensures var o := CreateBooking(l, data, now, NoFault);
      var b := o.reply.booking;
      && b in ListBookings(o.ledger, None, None, NoFault).reply.bookings
      && (|b.date| > 0 && |b.time| > 0 ==>
            CheckAvailability(o.ledger, Some(b.date), Some(b.time), NoFault).reply == Availability(false, Some(b)))
  {
    var o := CreateBooking(l, data, now, NoFault);
    var b := o.reply.booking;
    assert o.ledger.rows[|l.rows|] == b;
    FirstInSlotFinds(o.ledger.rows, b);
  }
}

=== FILE: scenarios.dfy ===
/** Concrete runs of the handlers on small ledgers: the worked examples of the booking API. */
module Scenarios {
  import opened Wrappers
  import opened Collation
  import opened BookingTable
  import opened Handlers

  function Row(id: int, date: string): Booking
  {
    Booking(id, date, "10:00", "Alex", "555-1111", "Haircut", None)
  }

  const JuneStart: string := "2024-06-01"
  const JuneEnd: string := "2024-06-30"

  lemma JuneStartInJune()
    ensures InRange("2024-06-01", JuneStart, JuneEnd)
  {
    LexLeReflexive(JuneStart);
    assert JuneStart == "2024-06-" + "01" && JuneEnd == "2024-06-" + "30";
    LexLeCommonPrefix("2024-06-", "01", "30");
  }

  lemma MidJuneInJune()
    ensures InRange("2024-06-15", JuneStart, JuneEnd)
  {
    assert JuneStart == "2024-06-" + "01" && JuneEnd == "2024-06-" + "30";
    assert "2024-06-15" == "2024-06-" + "15";
    LexLeCommonPrefix("2024-06-", "01", "15");
    LexLeCommonPrefix("2024-06-", "15", "30");
  }

  lemma JulyNotInJune()
    ensures !InRange("2024-07-01", JuneStart, JuneEnd)
  {
    assert "2024-07-01" == "2024-0" + "7-01" && JuneEnd == "2024-0" + "6-30";
    LexLeCommonPrefix("2024-0", "7-01", "6-30");
  }

  /** The filter keeps the rows whose dates lie in range, in storage order. */
  lemma SelectThree(r1: Booking, r2: Booking, r3: Booking, lo: string, hi: string)
    requires InRange(r1.date, lo, hi) && InRange(r2.date, lo, hi) && !InRange(r3.date, lo, hi)
    ensures SelectDates([r1, r2, r3], lo, hi) == [r1, r2]
  {
    assert [r1, r2, r3][1..] == [r2, r3] && [r2, r3][1..] == [r3] && [r3][1..] == [];
    assert SelectDates([r3], lo, hi) == [];
    assert SelectDates([r2, r3], lo, hi) == [r2];
    assert [r1] + [r2] == [r1, r2];
  }

  /** Bookings dated 2024-06-01, 2024-06-15 and 2024-07-01, in that storage order; listing
      June returns exactly the first two. */
  lemma JuneListing(r1: Booking, r2: Booking, r3: Booking, nextId: int)
    requires r1.date == "2024-06-01" && r2.date == "2024-06-15" && r3.date == "2024-07-01"
    ensures ListBookings(Ledger([r1, r2, r3], nextId), Some(JuneStart), Some(JuneEnd), NoFault).reply
      == Listed([r1, r2])
  {
    JuneStartInJune();
    MidJuneInJune();
    JulyNotInJune();
    SelectThree(r1, r2, r3, JuneStart, JuneEnd);
  }

  /** A create body holding every required field except `service`. */
  function WithoutService(date: Value, time: Value, name: Value, phone: Value): map<string, Value>
  {
    map["date" := date, "time" := time, "name" := name, "phone" := phone]
  }

  /** Leaving out `service` is a 400 naming `service`; nothing is stored or announced. */
  lemma MissingService(l: Ledger, date: Value, time: Value, name: Value, phone: Value, now: string, fault: Fault)
    ensures var o := CreateBooking(l, Some(WithoutService(date, time, name, phone)), now, fault);
      && o.reply == Failed(MissingField("service"))
      && Status(o.reply) == 400
      && ErrorText(o.reply.error) == Some("Missing required field: service")
      && o.ledger == l && o.events == []
  {
    var body := WithoutService(date, time, name, phone);
    assert "date" in body && "time" in body && "name" in body && "phone" in body && "service" !in body;
    assert !Complete(body);
    assert forall f :: FirstMissing(body, f) ==> f == "service";
    assert ErrorText(MissingField("service")) == Some("Missing required field: " + "service");
    assert "Missing required field: " + "service" == "Missing required field: service";
  }
}

=== FILE: search.dfy ===
/** The linear scan shared by the lookups of the model: the first element of a sequence that satisfies a test. */
module Search {
  import opened Wrappers

  /** The position of the first element of `s` that satisfies `p`, if any. */
  function FirstIndex<T>(s: seq<T>, p: T -> bool): (r: Option<nat>)
    ensures r.None? <==> forall i :: 0 <= i < |s| ==> !p(s[i])
    ensures r.Some? ==> r.value < |s| && p(s[r.value])
    ensures r.Some? ==> forall i :: 0 <= i < r.value ==> !p(s[i])
  {
    if |s| == 0 then None
    else if p(s[0]) then Some(0)
    else match FirstIndex(s[1..], p)
      case None => None
      case Some(k) => Some(k + 1)
  }
}

=== FILE: wrappers.dfy ===
/** Optional values and fallible results, shared by every module of the model. */
module Wrappers {

  /** A value that may be absent: a query argument that was not given, a lookup that found nothing. */
  datatype Option<+T> = None | Some(value: T)

  /** The outcome of a storage call that either succeeds with a value or raises an error. */
  datatype Result<+R, +E> = Success(value: R) | Failure(error: E)
}
